=== FILE: README.md ===
# Factoring quote engine

A Dafny model of the calculation behind a factoring (invoice-discounting) quote simulator. Given an invoice amount, a haircut, a risk grade, a term in days, the days late and three fee percentages, the simulator computes:

- the financed and retained parts of the invoice;
- the interest charged up front;
- the administrative cost, the credit and cargo insurance premiums, and the tax on those three;
- the total deductions and the amount disbursed;
- the late-payment interest;
- the effective annual yield.

It also keeps three dates consistent: the draw date, the term, and the due date.

The project has six modules:

- `RealArith` (`arith.dfy`): facts about products and quotients, stated on plain names so other proofs stay linear.
- `Powers` (`powers.dfy`): whole-number powers by recursion, and the `RealPow` parameter for fractional powers together with the laws it must obey.
- `Tables` (`tables.dfy`):
  - the haircut per product;
  - the monthly rate per risk grade;
  - the late and tax constants;
  - haircut resolution.
- `DateSync` (`date_sync.dfy`): the two callbacks that keep the due date and the term in step. Dates are whole day numbers.
- `Engine` (`engine.dfy`): the calculation block, from the daily rate to the yield.
- `Simulator` (`simulator.dfy`): resolves the form's entries through the tables and runs the calculation. It also has two concrete quotes.

Amounts are exact reals. Fractional exponentiation cannot be defined over Dafny's reals. The engine therefore takes it as a parameter `pow`, and the contracts assume `PowerLaw(pow)`: a positive base gives a positive power, one raised to any power is one, and for a positive exponent the power grows with the base. The lemmas that undo a fractional power also assume `ExponentLaws(pow)`: raising to `1/k` is a `k`-th root, and raising to `y` is undone by raising to `1/y`. These are `Engine.DailyRateCompoundsToMonth`, `Engine.MonthLongTermChargesMonthlyRate`, `Engine.YieldGrowsDisbursementIntoFinanced`, and the 30-day lemmas built on them (`Engine.InterestOverAMonth`, `Engine.LateInterestOverAMonth`, `Engine.MonthTermChargesMonthlyRate`, `Engine.MonthQuoteChargesMonthlyRate`, `Engine.MonthLateChargesLateRate`), the 60-day lemma `Engine.TwoMonthsAtMonthlyRate` and the worked example `Simulator.CherriesTwoMonthInterest`.

Constants and behaviours of `simulador.py` that the model keeps:

- Risk grades A, B and C are charged 0.9%, 1.2% and 1.7% a month (`simulador.py:65`).
- Cherries have a 40% haircut (`simulador.py:55`).
- Late interest is reported beside the advance. It is not part of the deductions and is not subtracted from the disbursement (`simulador.py:118-119`).
- The term is whatever whole number of days the form holds, including zero or a negative number. The term widget has a minimum of 1, but the due-date callback sets the term to any difference of dates (`simulador.py:26`). Only the yield is guarded against a term that is not positive (`simulador.py:120`).
  - With a negative term, the period rate is a discount: it is negative for a positive rate, and one plus it is the reciprocal of the growth over as many days forward. `IntPow` gives the reciprocal power, as floating-point `**` does.
  - The interest is then negative. The disbursement is the financed amount less the fees, their tax and this negative interest. It exceeds the financed amount only when the discount outweighs the taxed fees; with the default fees a few days of negative term do not.
- The three fee fields take percentages and divide them by 100 (`simulador.py:94-96`). The default administrative cost is therefore 0.20% of the financed amount.

## Model

| member | source | states |
|---|---|---|
| Tables.ProductHaircut | simulador.py:53-56 | every product's haircut is a proper fraction, between 10% and 40% |
| Tables.ResolveHaircut | simulador.py:58-62 | the resolved haircut always lies in [0,1]; by product it is the table entry, and manually it is the typed percentage over 100 |
| Tables.FromPercent | simulador.py:62 | the fraction times 100 is the percentage typed; a percentage in [0,100] gives a fraction in [0,1] |
| Tables.MonthlyRate | simulador.py:65-66 | every grade's monthly rate is strictly between 0 and 1 |
| Tables.MonthlyRateIncreasesWithGrade | simulador.py:65 | a grade ranks riskier exactly when its monthly rate is higher |
| DateSync.UpdateDueDate | simulador.py:20-22 | afterwards the due date is the draw date plus the term; the draw date and the term are unchanged |
| DateSync.UpdateTermDays | simulador.py:24-26 | afterwards the term is the days from draw to due date; both dates are unchanged |
| DateSync.TermSurvivesRoundTrip | simulador.py:20-26 | recomputing the term right after moving the due date gives back the term that was set |
| DateSync.DueDateSurvivesRoundTrip | simulador.py:20-26 | moving the due date right after recomputing the term gives back the due date that was set |
| DateSync.SyncedIsFixedPoint | simulador.py:20-26 | each callback leaves a schedule unchanged if and only if the schedule is already synchronised |
| DateSync.PositiveTermIffDueAfterDraw | simulador.py:26 | in a synchronised schedule the term is positive exactly when the due date is after the draw date |
| Powers.PowBounds | simulador.py:105 | a whole-number power of a positive base is positive; of a base of at least one, at least one; of a base above one with a positive exponent, above one |
| Powers.PowAdds | simulador.py:105 | raising to `a + b` is raising to `a` times raising to `b`, for every base |
| Powers.IntPow | simulador.py:105 | an integer power is positive; for a non-negative exponent it is the whole-number power, and for a negative one its reciprocal; one to any power is one; a base above one gives a power above one for a positive exponent and below one for a negative exponent |
| Powers.PowOfOne | simulador.py:105 | one raised to any whole number is one |
| Powers.PowStrictlyIncreasingInExponent | simulador.py:108 | above one, a larger exponent gives a strictly larger power |
| Powers.PowStrictlyIncreasingInBase | simulador.py:105 | for a positive exponent, a larger positive base gives a strictly larger power |
| Powers.PowAgainstOne | simulador.py:120 | a positive real exponent keeps a positive base on the same side of one: above stays above, below stays below, one stays one |
| Engine.DailyRate | simulador.py:104 | the daily rate is never negative, and it is zero exactly when the monthly rate is zero |
| Engine.DailyRateStrictlyIncreasing | simulador.py:104 | a higher monthly rate gives a strictly higher daily rate |
| Engine.DailyRateCompoundsToMonth | simulador.py:104 | compounding the daily rate over 30 days gives back one plus the monthly rate |
| Engine.PeriodRate | simulador.py:105 | the period rate exceeds -1; it is non-negative for a non-negative term, positive for a positive rate and term, negative for a positive rate and a negative term, and zero exactly when the daily rate or the term is zero; how it compounds over non-negative terms is stated by `Engine.PeriodRateCompounds` and `Engine.PeriodRateOfOneDay`, and the negative terms by `Engine.PeriodRateOfNegativeTerm` |
| Engine.MonthLongTermChargesMonthlyRate | simulador.py:104-105 | a 30-day term is charged exactly the monthly rate |
| Engine.PeriodRateCompounds | simulador.py:105 | for any daily rate and any two non-negative day counts, one plus the rate over `a + b` days is the product of one plus the rate over `a` days and one plus the rate over `b` days |
| Engine.PeriodRateOfNegativeTerm | simulador.py:105 | for any daily rate and any `n`, one plus the rate over `-n` days is the reciprocal of one plus the rate over `n` days |
| Engine.PeriodRateOfOneDay | simulador.py:105 | a one-day term accrues exactly the daily rate |
| Engine.TwoMonthsAtMonthlyRate | simulador.py:104-105 | a 60-day term accrues the monthly rate compounded over two months: one plus the period rate is the square of one plus the monthly rate |
| Engine.PeriodRateStrictlyIncreasing | simulador.py:105 | for a positive term, a higher daily rate gives a strictly higher period rate |
| Engine.LateInterest | simulador.py:106-108 | late interest is never negative, and it is zero if and only if no day is late |
| Engine.LateInterestGuardIsRedundant | simulador.py:108 | the compounded formula alone gives the same value as the guarded one, also for zero days late |
| Engine.LateInterestStrictlyIncreasing | simulador.py:108 | every further day late strictly increases the late interest |
| Engine.LateInterestOverAMonth | simulador.py:106-108 | thirty days late at the daily late rate cost exactly the 2.5% monthly late rate on the amount |
| Engine.AnnualYield | simulador.py:120 | the yield is 0 when the disbursement or the term is not positive; otherwise it exceeds -1, is positive exactly when more is recovered than disbursed, and zero exactly when the two are equal |
| Engine.YieldGrowsDisbursementIntoFinanced | simulador.py:120 | compounding the disbursement at the yield over the term, on a 360-day year, gives back the financed amount |
| Engine.Financed | simulador.py:110 | the financed part lies between 0 and the invoice; with the retained part it adds up to the invoice exactly; it is positive when the invoice is and the haircut is below one |
| Engine.Retained | simulador.py:111 | the retained part lies between 0 and the invoice, and it is zero exactly when the invoice or the haircut is zero |
| Engine.Interest | simulador.py:112 | interest is non-negative for a non-negative term, and zero when nothing is financed, the rate is zero or the term is zero; the amount for any term is stated by `Engine.Discount` |
| Engine.InterestOverAMonth | simulador.py:104-112 | over a 30-day term the interest is exactly the financed amount times the monthly rate |
| Engine.InterestRisesWithMonthlyRate | simulador.py:104-112 | with something financed and a positive term, a higher monthly rate is charged strictly more interest |
| Engine.TaxedFees | simulador.py:113-117 | each fee is non-negative; the taxable base is exactly the administrative cost plus both insurance premiums; the tax is 19% of that base; zero fee rates give no fees and no tax; a zero invoice gives no premiums and a zero financed amount no administrative cost; the bases are stated by `Engine.InsuranceOnInvoice` and `Engine.AdminCostOnFinanced` |
| Engine.InsuranceOnInvoice | simulador.py:113-114 | both insurance premiums are the same whatever the financed amount, so they are charged on the invoice |
| Engine.AdminCostOnFinanced | simulador.py:115 | the administrative cost is the same whatever the invoice amount passed beside the financed amount, so it is charged on the financed amount |
| Engine.Discount | simulador.py:104-120 | the daily rate is the one equivalent to the monthly rate, the period rate is that daily rate compounded over the term, and the interest is the financed part times the period rate, for any term; the fees are charged with the insurance on the invoice and the administrative cost on the financed part; the yield is the annualised growth of the disbursement into the financed part over the term; the invoice is split exactly into financed and retained parts, and disbursement plus deductions plus retained equals the invoice; the deductions are the interest plus the fees grossed up by the tax; a zero period rate with zero fees deducts nothing, so the whole financed amount is disbursed; the yield is 0 when undefined, never negative, and positive exactly when something was deducted from a positive disbursement over a positive term |
| Engine.Calculate | simulador.py:104-120 | the quote's advance is the advance computed from its terms; the quote conserves the invoice amount; the late daily rate is the one equivalent to the 2.5% monthly late rate, and the late interest is that rate compounded over the days late on the whole invoice, zero exactly when nothing is late |
| Engine.LateInterestIsNotNetted | simulador.py:118-119 | the days late change nothing in the advance: the split, the deductions, the disbursement and the yield stay the same |
| Engine.LateInterestGrowsWithDaysLate | simulador.py:106-108 | in a full quote, more days late give strictly more late interest |
| Engine.TaxBaseExcludesInterest | simulador.py:115-117 | the fees and the tax do not depend on the monthly rate, the term or the days late, so interest and late interest are outside the taxable base |
| Engine.MonthTermChargesMonthlyRate | simulador.py:110-112 | in an advance over a 30-day term, the interest deducted is the monthly rate times the financed part |
| Engine.MonthQuoteChargesMonthlyRate | simulador.py:104-112 | in a full quote over a 30-day term, the interest deducted is the monthly rate times the financed amount |
| Engine.MonthLateChargesLateRate | simulador.py:106-108 | in a quote 30 days late, the late interest is 2.5% of the whole invoice |
| Engine.PremiumsIgnoreHaircut | simulador.py:110-114 | in a full quote the haircut does not change either insurance premium |
| Engine.LateInterestIgnoresHaircut | simulador.py:108 | the haircut does not change the late interest, so it accrues on the whole invoice and not on the financed part |
| Simulator.Resolve | simulador.py:58-66 | the resolved terms satisfy the calculation's assumptions, carry the table haircut or manual haircut and the grade's monthly rate, and take each fee percentage over 100 |
| Simulator.Simulate | simulador.py:104-120 | the quote shown for any entries conserves the invoice amount, keeps the retained part within the invoice, has zero late interest exactly when nothing is late, and has a guarded yield |
| Simulator.InterestRisesWithGrade | simulador.py:64-66 | all else equal and with a positive term and something financed, a riskier grade is charged strictly more interest |
| Simulator.InterestOfGrade | simulador.py:112 | the interest quoted under a grade is the interest on the financed amount at that grade's daily rate |
| Simulator.CherriesQuote | simulador.py:110-117 | with the default entries and Cherries: 24000 financed, 16000 retained, fees of 48, 140 and 40, a taxable base of 228, tax of 43.32, and no late interest |
| Simulator.CherriesTwoMonthInterest | simulador.py:104-112 | for the Cherries invoice of 40000 at grade A over 60 days, whatever the fees, the interest is 24000 × (1.009² − 1) = 433.944 |
| Simulator.OverchargedQuoteHasZeroYield | simulador.py:118-120 | a 200% administrative cost makes the disbursement negative, and the reported yield is then 0 |

## Left out

- The form itself is not modelled: the widgets, the `session_state` storage, the `on_change` wiring and `datetime.date.today()` (`simulador.py:7-13`, `28-51`, `69-96`). These are user-interface plumbing. The widget bounds become the predicate `Simulator.WithinInputBounds`.
- The HTML report and its number and date formatting (`simulador.py:122-189`) are left out, since they are presentation only. This includes the displayed value of retained minus late interest (`simulador.py:179`).
- The grant date `fecha_otorgamiento` (`simulador.py:70`) is only displayed, so it is not modelled.
- Fractional powers (`simulador.py:104`, `107`, `120`) are the parameter `pow`, constrained only by `PowerLaw` and `ExponentLaws`. No concrete real exponentiation is modelled.
- Floating-point rounding is not modelled. Amounts are exact reals, so the equalities proved here hold only approximately for the program's floats.
- Dates are whole day numbers. The calendar's range limits (years 1 to 9999) are not modelled, so a due date past them, which would raise an overflow error, is not represented.
- Simulator.Simulate: does not itself state the interest amount or how the yield and the late interest move. Its quote is `Engine.Calculate` of the resolved terms. `Engine.Calculate` and `Engine.Discount` state the interest, fees, yield and late interest for any terms, and `Simulator.InterestRisesWithGrade` states how the grade moves the interest. This keeps each proof small.
- Floating-point overflow is not modelled. `(1 + tasa_diaria)**plazo_dias_calc` (`simulador.py:105`) raises an overflow error once the compounded growth exceeds the largest float. At grade A that happens for a term of roughly 2.4 million days. The yield's `(monto_financiado / monto_a_girar)**(360 / plazo_dias_calc)` (`simulador.py:120`) overflows the same way for entries the form accepts. For example, a 1-day term with a 75% administrative cost gives a ratio of about 10.18, and 10.18 raised to 360 exceeds the largest float. The model's exact reals never overflow, so it computes a quote where the program would stop with an exception.

=== FILE: arith.dfy ===
/**
 Facts of real arithmetic that involve products or quotients of unknowns.
 Each is stated once here, on plain names, so that the proofs that use them
 need only linear reasoning.
 */
module RealArith {

  /** The sign of a product from the signs of its factors. */
  lemma ProductSign(a: real, b: real)
    ensures a >= 0.0 && b >= 0.0 ==> a * b >= 0.0
    ensures a > 0.0 && b > 0.0 ==> a * b > 0.0
    ensures a == 0.0 || b == 0.0 ==> a * b == 0.0
  {
  }

  lemma MulNonPositive(a: real, b: real)
    requires a >= 0.0 && b <= 0.0
    ensures a * b <= 0.0
  {
  }

  lemma MulPositive(a: real, b: real)
    requires a > 0.0 && b > 0.0
    ensures a * b > 0.0
  {
  }

  /** Multiplying by a positive factor preserves a strict order. */
  lemma MulStrictlyIncreasing(c: real, a: real, b: real)
    requires c > 0.0 && a < b
    ensures c * a < c * b
  {
    assert c * b - c * a == c * (b - a);
    MulPositive(c, b - a);
  }

  /** `MulStrictlyIncreasing` on named products. */
  lemma ScaledStrictly(c: real, a: real, b: real, ca: real, cb: real)
    requires c > 0.0 && a < b
    requires ca == c * a && cb == c * b
    ensures ca < cb
  {
    MulStrictlyIncreasing(c, a, b);
  }

  lemma MulAboveOne(x: real, p: real, xp: real)
    requires x > 1.0 && p > 0.0
    requires xp == x * p
    ensures xp > p
  {
    MulStrictlyIncreasing(p, 1.0, x);
  }

  lemma MulStrictlyMonotone(a: real, b: real, c: real, d: real)
    requires 0.0 < a < c && 0.0 < b <= d
    ensures a * b < c * d
  {
    MulStrictlyIncreasing(b, a, c);
    assert c * b <= c * d;
  }

  /** Splitting an amount by a fraction and its complement loses nothing, and neither part is negative. */
  lemma SplitIsExact(a: real, h: real)
    requires a >= 0.0 && 0.0 <= h <= 1.0
    ensures a * (1.0 - h) + a * h == a
    ensures 0.0 <= a * (1.0 - h) && 0.0 <= a * h
  {
    ProductSign(a, h);
    ProductSign(a, 1.0 - h);
  }

  /** How a quotient of a positive divisor compares with one. */
  lemma QuotientAgainstOne(a: real, b: real)
    requires b > 0.0
    ensures a / b > 1.0 <==> a > b
    ensures a / b == 1.0 <==> a == b
    ensures a > 0.0 ==> a / b > 0.0
    ensures b * (a / b) == a
  {
    var q := a / b;
    assert b * q == a;
    if q > 1.0 {
      MulStrictlyIncreasing(b, 1.0, q);
    } else if q < 1.0 {
      MulStrictlyIncreasing(b, q, 1.0);
    }
    if q <= 0.0 {
      MulNonPositive(b, q);
    }
  }

  /** The reciprocal of a quotient is the quotient turned upside down. */
  lemma ReciprocalOfQuotient(a: real, b: real, q: real)
    requires a != 0.0 && b != 0.0
    requires q * (a / b) == 1.0
    ensures q == b / a
  {
    assert (a / b) * (b / a) == 1.0;
  }
}

=== FILE: date_sync.dfy ===
/**
 The two callbacks that keep the financing dates consistent with the term.

 Dates are day numbers (days since a fixed epoch), so the difference of two
 dates is a whole number of days and adding a term to a date is addition.
 Changing the draw date or the term moves the due date; changing the due
 date recomputes the term. The term is an `int`: a due date chosen before the
 draw date yields a negative term, and nothing in the callbacks prevents it.
 */
module DateSync {

  /** The three synchronised fields of the form. */
  datatype Schedule = Schedule(drawDate: int, termDays: int, dueDate: int)

  /** The due date lies exactly `termDays` days after the draw date. */
  predicate Synced(s: Schedule) {
    s.dueDate - s.drawDate == s.termDays
  }

  /** Callback run when the draw date or the term changes: the due date follows them. */
  function UpdateDueDate(s: Schedule): (r: Schedule)
    ensures Synced(r)
    ensures r.drawDate == s.drawDate && r.termDays == s.termDays
  {
    s.(dueDate := s.drawDate + s.termDays)
  }

  /** Callback run when the due date changes: the term follows it. */
  function UpdateTermDays(s: Schedule): (r: Schedule)
    ensures Synced(r)
    ensures r.drawDate == s.drawDate && r.dueDate == s.dueDate
  {
    s.(termDays := s.dueDate - s.drawDate)
  }

  /** Recomputing the term right after moving the due date gives back the term the user set. */
  lemma TermSurvivesRoundTrip(s: Schedule)
    ensures UpdateTermDays(UpdateDueDate(s)).termDays == s.termDays
    ensures UpdateTermDays(UpdateDueDate(s)) == UpdateDueDate(s)
  {
  }

  /** Moving the due date right after recomputing the term gives back the due date the user set. */
  lemma DueDateSurvivesRoundTrip(s: Schedule)
    ensures UpdateDueDate(UpdateTermDays(s)).dueDate == s.dueDate
    ensures UpdateDueDate(UpdateTermDays(s)) == UpdateTermDays(s)
  {
  }

  /** A schedule is left alone by either callback exactly when it is already synchronised. */
  lemma SyncedIsFixedPoint(s: Schedule)
    ensures Synced(s) <==> UpdateDueDate(s) == s
    ensures Synced(s) <==> UpdateTermDays(s) == s
  {
  }

  /** A synchronised schedule has a positive term exactly when the due date is after the draw date. */
  lemma PositiveTermIffDueAfterDraw(s: Schedule)
    requires Synced(s)
    ensures s.termDays > 0 <==> s.dueDate > s.drawDate
  {
  }
}

=== FILE: engine.dfy ===
/**
 The quote calculation: from an invoice amount, a haircut, a monthly rate, a
 term and the fee rates, the financed and retained amounts, the itemised
 deductions, the amount to disburse, the late-payment interest and the
 annualised yield.

 Amounts are exact reals. Real exponentiation with a fractional exponent is
 the parameter `pow`, assumed to satisfy `PowerLaw`.
 */
module Engine {
  import opened RealArith
  import opened Powers
  import opened Tables

  /** Fee rates as fractions: administrative cost, credit insurance and cargo insurance. */
  datatype FeeRates = FeeRates(adminCost: real, creditInsurance: real, cargoInsurance: real)

  /** The resolved inputs of one quote; every rate is a fraction, not a percentage. */
  datatype Terms = Terms(
    invoiceAmount: real,
    haircut: real,
    monthlyRate: real,
    termDays: int,
    daysLate: nat,
    feeRates: FeeRates)

  /** No fee rate is negative. */
  predicate ValidFeeRates(r: FeeRates) {
    r.adminCost >= 0.0 && r.creditInsurance >= 0.0 && r.cargoInsurance >= 0.0
  }

  /**
   What the input form guarantees of the values that reach the calculation.
   The term carries no bound: it may have been recomputed from a due date
   that precedes the draw date.
   */
  predicate ValidTerms(t: Terms) {
    && t.invoiceAmount >= 1000.0
    && 0.0 <= t.haircut <= 1.0
    && t.monthlyRate >= 0.0
    && ValidFeeRates(t.feeRates)
  }

  /**
   The daily rate equivalent to a monthly rate under geometric decomposition
   over a 30-day month. It is zero exactly when the monthly rate is zero.
   */
  function DailyRate(pow: RealPow, monthly: real): (d: real)
    requires PowerLaw(pow)
    requires monthly >= 0.0
    ensures d >= 0.0
    ensures d == 0.0 <==> monthly == 0.0
  {
    PowAgainstOne(pow, 1.0 + monthly, 1.0 / DaysPerMonth as real);
    Root(pow, 1.0 + monthly, DaysPerMonth) - 1.0
  }

  /** A higher monthly rate gives a strictly higher daily rate. */
  lemma DailyRateStrictlyIncreasing(pow: RealPow, m1: real, m2: real)
    requires PowerLaw(pow)
    requires 0.0 <= m1 < m2
    ensures DailyRate(pow, m1) < DailyRate(pow, m2)
  {
  }

  /** Compounding the daily rate over 30 days gives back the monthly rate. */
  lemma DailyRateCompoundsToMonth(pow: RealPow, monthly: real)
    requires PowerLaw(pow) && ExponentLaws(pow)
    requires monthly >= 0.0
    ensures Pow(1.0 + DailyRate(pow, monthly), DaysPerMonth) == 1.0 + monthly
  {
  }

  /**
   The rate accrued over a term of `termDays` days at a daily rate,
   compounded; a negative term discounts instead of accruing.
   */
  function PeriodRate(daily: real, termDays: int): (p: real)
    requires daily >= 0.0
    ensures p > -1.0
    ensures termDays >= 0 ==> p >= 0.0
    ensures p == 0.0 <==> daily == 0.0 || termDays == 0
    ensures daily > 0.0 && termDays > 0 ==> p > 0.0
    ensures daily > 0.0 && termDays < 0 ==> p < 0.0
  {
    IntPow(1.0 + daily, termDays) - 1.0
  }

  /** A 30-day term is charged exactly the monthly rate. */
  lemma MonthLongTermChargesMonthlyRate(pow: RealPow, monthly: real)
    requires PowerLaw(pow) && ExponentLaws(pow)
    requires monthly >= 0.0
    ensures PeriodRate(DailyRate(pow, monthly), DaysPerMonth) == monthly
  {
  }

  /** Accruing over `a + b` days is accruing over `a` days, then over `b` more. */
  lemma PeriodRateCompounds(daily: real, a: nat, b: nat)
    requires daily >= 0.0
    ensures 1.0 + PeriodRate(daily, a + b) == (1.0 + PeriodRate(daily, a)) * (1.0 + PeriodRate(daily, b))
  {
    PowAdds(1.0 + daily, a, b);
    assert 1.0 + PeriodRate(daily, a) == Pow(1.0 + daily, a);
    assert 1.0 + PeriodRate(daily, b) == Pow(1.0 + daily, b);
    assert 1.0 + PeriodRate(daily, a + b) == Pow(1.0 + daily, a + b);
  }

  /**
   A negative term discounts by the reciprocal of the growth over the same
   number of days forward.
   */
  lemma PeriodRateOfNegativeTerm(daily: real, n: nat)
    requires daily >= 0.0
    ensures (1.0 + PeriodRate(daily, -(n as int))) * (1.0 + PeriodRate(daily, n)) == 1.0
  {
  }

  /** A one-day term accrues exactly the daily rate. */
  lemma PeriodRateOfOneDay(daily: real)
    requires daily >= 0.0
    ensures PeriodRate(daily, 1) == daily
  {
    assert Pow(1.0 + daily, 1) == (1.0 + daily) * Pow(1.0 + daily, 0);
  }

  /** A 60-day term is charged the monthly rate compounded over two months. */
  lemma TwoMonthsAtMonthlyRate(pow: RealPow, monthly: real)
    requires PowerLaw(pow) && ExponentLaws(pow)
    requires monthly >= 0.0
    ensures 1.0 + PeriodRate(DailyRate(pow, monthly), 2 * DaysPerMonth) == (1.0 + monthly) * (1.0 + monthly)
  {
    MonthLongTermChargesMonthlyRate(pow, monthly);
    PeriodRateCompounds(DailyRate(pow, monthly), DaysPerMonth, DaysPerMonth);
  }

  /** For a positive term, a higher daily rate gives a strictly higher period rate. */
  lemma PeriodRateStrictlyIncreasing(d1: real, d2: real, termDays: int)
    requires 0.0 <= d1 < d2
    requires termDays > 0
    ensures PeriodRate(d1, termDays) < PeriodRate(d2, termDays)
  {
    PowStrictlyIncreasingInBase(1.0 + d1, 1.0 + d2, termDays);
  }

  /**
   Interest for paying `daysLate` days late, compounded daily on the whole
   invoice amount (not on the financed amount). It is zero exactly when the
   invoice is not late.
   */
  function LateInterest(amount: real, lateDaily: real, daysLate: nat): (li: real)
    requires amount > 0.0
    requires lateDaily > 0.0
    ensures li >= 0.0
    ensures li == 0.0 <==> daysLate == 0
  {
    if daysLate > 0 then
      var growth := Pow(1.0 + lateDaily, daysLate);
      PowBounds(1.0 + lateDaily, daysLate);
      MulPositive(amount, growth - 1.0);
      amount * (growth - 1.0)
    else
      0.0
  }

  /** The `daysLate > 0` guard changes nothing: with no days late the compounded formula is zero too. */
  lemma LateInterestGuardIsRedundant(amount: real, lateDaily: real, daysLate: nat)
    requires amount > 0.0
    requires lateDaily > 0.0
    ensures LateInterest(amount, lateDaily, daysLate) == amount * (Pow(1.0 + lateDaily, daysLate) - 1.0)
  {
  }

  /** Each further day late strictly increases the late interest. */
  lemma LateInterestStrictlyIncreasing(amount: real, lateDaily: real, d1: nat, d2: nat)
    requires amount > 0.0
    requires lateDaily > 0.0
    requires d1 < d2
    ensures LateInterest(amount, lateDaily, d1) < LateInterest(amount, lateDaily, d2)
  {
    PowStrictlyIncreasingInExponent(1.0 + lateDaily, d1, d2);
    LateInterestGuardIsRedundant(amount, lateDaily, d1);
    LateInterestGuardIsRedundant(amount, lateDaily, d2);
    ScaledStrictly(amount, Pow(1.0 + lateDaily, d1) - 1.0, Pow(1.0 + lateDaily, d2) - 1.0,
                   LateInterest(amount, lateDaily, d1), LateInterest(amount, lateDaily, d2));
  }

  /** Thirty days late at the late rate are charged the monthly late rate on the whole amount. */
  lemma LateInterestOverAMonth(pow: RealPow, amount: real)
    requires PowerLaw(pow) && ExponentLaws(pow)
    requires amount > 0.0
    ensures LateInterest(amount, DailyRate(pow, LateMonthlyRate), DaysPerMonth) == amount * LateMonthlyRate
  {
    DailyRateCompoundsToMonth(pow, LateMonthlyRate);
  }

  /**
   Effective yield over a 360-day year of advancing `disbursement` and
   recovering `financed` after `termDays` days. It is zero, rather than
   undefined, when the disbursement or the term is not positive; otherwise it
   is positive exactly when more is recovered than advanced.
   */
  function AnnualYield(pow: RealPow, financed: real, disbursement: real, termDays: int): (y: real)
    requires PowerLaw(pow)
    ensures disbursement <= 0.0 || termDays <= 0 ==> y == 0.0
    ensures disbursement > 0.0 && termDays > 0 && financed > 0.0 ==>
              && y > -1.0
              && (y > 0.0 <==> financed > disbursement)
              && (y == 0.0 <==> financed == disbursement)
  {
    if termDays > 0 && disbursement > 0.0 then
      var ratio := financed / disbursement;
      var exponent := DaysPerYear as real / termDays as real;
      QuotientAgainstOne(financed, disbursement);
      PowAgainstOne(pow, ratio, exponent);
      pow(ratio, exponent) - 1.0
    else
      0.0
  }

  /**
   The yield is the rate that, compounded over the term on a 360-day year,
   grows the disbursement into the financed amount.
   */
  lemma YieldGrowsDisbursementIntoFinanced(pow: RealPow, financed: real, disbursement: real, termDays: int)
    requires PowerLaw(pow) && ExponentLaws(pow)
    requires financed > 0.0 && disbursement > 0.0 && termDays > 0
    ensures disbursement * pow(1.0 + AnnualYield(pow, financed, disbursement, termDays), termDays as real / DaysPerYear as real)
         == financed
  {
    var ratio := financed / disbursement;
    var exponent := DaysPerYear as real / termDays as real;
    QuotientAgainstOne(financed, disbursement);
    assert 1.0 + AnnualYield(pow, financed, disbursement, termDays) == pow(ratio, exponent);
    ReciprocalOfQuotient(DaysPerYear as real, termDays as real, Reciprocal(exponent));
    assert pow(pow(ratio, exponent), Reciprocal(exponent)) == ratio;
  }

  /**
   The fees charged up front besides interest: the administrative cost (on
   the financed amount), the credit and cargo insurance premiums (on the whole
   invoice), and the tax levied on those three.
   */
  datatype Fees = Fees(
    adminCost: real,
    creditInsurance: real,
    cargoInsurance: real,
    taxable: real,
    tax: real)

  function TaxedFees(invoiceAmount: real, financed: real, rates: FeeRates): (f: Fees)
    requires invoiceAmount >= 0.0 && financed >= 0.0
    requires ValidFeeRates(rates)
    ensures f.adminCost >= 0.0 && f.creditInsurance >= 0.0 && f.cargoInsurance >= 0.0
    ensures f.taxable == f.adminCost + f.creditInsurance + f.cargoInsurance
    ensures f.tax == TaxRate * f.taxable
    ensures rates == FeeRates(0.0, 0.0, 0.0) ==> f.taxable == 0.0 && f.tax == 0.0
    ensures invoiceAmount == 0.0 ==> f.creditInsurance == 0.0 && f.cargoInsurance == 0.0
    ensures financed == 0.0 ==> f.adminCost == 0.0
  {
    var creditInsurance := invoiceAmount * rates.creditInsurance;
    var cargoInsurance := invoiceAmount * rates.cargoInsurance;
    var adminCost := financed * rates.adminCost;
    var taxable := adminCost + creditInsurance + cargoInsurance;
    ProductSign(invoiceAmount, rates.creditInsurance);
    ProductSign(invoiceAmount, rates.cargoInsurance);
    ProductSign(financed, rates.adminCost);
    Fees(adminCost, creditInsurance, cargoInsurance, taxable, taxable * TaxRate)
  }

  /** Both insurance premiums are charged on the invoice: the financed amount does not change them. */
  lemma InsuranceOnInvoice(invoiceAmount: real, f1: real, f2: real, rates: FeeRates)
    requires invoiceAmount >= 0.0 && f1 >= 0.0 && f2 >= 0.0
    requires ValidFeeRates(rates)
    ensures TaxedFees(invoiceAmount, f1, rates).creditInsurance == TaxedFees(invoiceAmount, f2, rates).creditInsurance
    ensures TaxedFees(invoiceAmount, f1, rates).cargoInsurance == TaxedFees(invoiceAmount, f2, rates).cargoInsurance
  {
  }

  /** The administration cost is charged on the financed amount: the invoice does not change it. */
  lemma AdminCostOnFinanced(i1: real, i2: real, financed: real, rates: FeeRates)
    requires i1 >= 0.0 && i2 >= 0.0 && financed >= 0.0
    requires ValidFeeRates(rates)
    ensures TaxedFees(i1, financed, rates).adminCost == TaxedFees(i2, financed, rates).adminCost
  {
  }

  /**
   The part of the invoice that is advanced and the part held back: the
   invoice is split between them without remainder, and neither is negative.
   */
  function Financed(invoiceAmount: real, haircut: real): (f: real)
    requires invoiceAmount >= 0.0 && 0.0 <= haircut <= 1.0
    ensures 0.0 <= f <= invoiceAmount
    ensures f + Retained(invoiceAmount, haircut) == invoiceAmount
    ensures invoiceAmount > 0.0 && haircut < 1.0 ==> f > 0.0
  {
    SplitIsExact(invoiceAmount, haircut);
    ProductSign(invoiceAmount, 1.0 - haircut);
    invoiceAmount * (1.0 - haircut)
  }

  function Retained(invoiceAmount: real, haircut: real): (r: real)
    requires invoiceAmount >= 0.0 && 0.0 <= haircut <= 1.0
    ensures 0.0 <= r <= invoiceAmount
    ensures r == 0.0 <==> invoiceAmount == 0.0 || haircut == 0.0
  {
    SplitIsExact(invoiceAmount, haircut);
    ProductSign(invoiceAmount, haircut);
    invoiceAmount * haircut
  }

  /**
   Interest charged up front on the financed amount: the daily rate
   compounded over the term. It is never negative for a term that is not
   negative, and vanishes when nothing is financed or nothing accrues.
   */
  function Interest(financed: real, dailyRate: real, termDays: int): (i: real)
    requires financed >= 0.0 && dailyRate >= 0.0
    ensures termDays >= 0 ==> i >= 0.0
    ensures financed == 0.0 || dailyRate == 0.0 || termDays == 0 ==> i == 0.0
  {
    var periodRate := PeriodRate(dailyRate, termDays);
    ProductSign(financed, periodRate);
    financed * periodRate
  }

  /**
   For a positive term and a positive financed amount, a higher monthly rate
   is charged strictly more interest.
   */
  lemma InterestRisesWithMonthlyRate(pow: RealPow, financed: real, m1: real, m2: real, termDays: int)
    requires PowerLaw(pow)
    requires financed > 0.0 && 0.0 <= m1 < m2
    requires termDays > 0
    ensures Interest(financed, DailyRate(pow, m1), termDays) < Interest(financed, DailyRate(pow, m2), termDays)
  {
    DailyRateStrictlyIncreasing(pow, m1, m2);
    var d1, d2 := DailyRate(pow, m1), DailyRate(pow, m2);
    PeriodRateStrictlyIncreasing(d1, d2, termDays);
    ScaledStrictly(financed, PeriodRate(d1, termDays), PeriodRate(d2, termDays),
                   Interest(financed, d1, termDays), Interest(financed, d2, termDays));
  }

  /** Over a 30-day term the interest is the financed amount times the monthly rate. */
  lemma InterestOverAMonth(pow: RealPow, financed: real, monthly: real)
    requires PowerLaw(pow) && ExponentLaws(pow)
    requires financed >= 0.0 && monthly >= 0.0
    ensures Interest(financed, DailyRate(pow, monthly), DaysPerMonth) == financed * monthly
  {
    MonthLongTermChargesMonthlyRate(pow, monthly);
  }

  /** The advance against the invoice: how it is split, what is deducted, what is paid out, and its yield. */
  datatype Advance = Advance(
    financed: real,
    retained: real,
    dailyRate: real,
    periodRate: real,
    interest: real,
    fees: Fees,
    totalDeductions: real,
    disbursement: real,
    annualYield: real)

  /** The interest of an advance is the financed part charged at `rate`. */
  predicate ChargedAt(a: Advance, rate: real) {
    a.interest == a.financed * rate
  }

  /** The advance, computed in the order the simulator computes it. */
  function Discount(pow: RealPow, invoiceAmount: real, haircut: real, monthlyRate: real, termDays: int,
                    rates: FeeRates): (a: Advance)
    requires PowerLaw(pow)
    requires invoiceAmount >= 0.0 && 0.0 <= haircut <= 1.0 && monthlyRate >= 0.0
    requires ValidFeeRates(rates)
    // the invoice is split, without remainder, into a financed and a retained part
    ensures a.financed + a.retained == invoiceAmount
    ensures 0.0 <= a.financed && 0.0 <= a.retained
    // the interest is the financed amount accrued at the period rate of the daily rate of the monthly rate
    ensures a.financed == Financed(invoiceAmount, haircut)
    ensures a.dailyRate == DailyRate(pow, monthlyRate)
    ensures a.periodRate == PeriodRate(a.dailyRate, termDays)
    ensures a.interest == a.financed * a.periodRate
    // the administrative cost is charged on the financed part, the premiums on the invoice
    ensures a.fees == TaxedFees(invoiceAmount, a.financed, rates)
    // the yield annualises the growth of the disbursement into the financed amount over the term
    ensures a.annualYield == AnnualYield(pow, a.financed, a.disbursement, termDays)
    // the deductions are the interest plus the fees grossed up by the tax; interest is not taxed
    ensures a.totalDeductions == a.interest + (1.0 + TaxRate) * a.fees.taxable
    // every unit of the invoice is disbursed, deducted or retained
    ensures a.disbursement + a.totalDeductions + a.retained == invoiceAmount
    ensures termDays >= 0 ==> a.interest >= 0.0 && a.disbursement <= a.financed
    // the yield is guarded: zero when undefined, never negative, and positive exactly when something was deducted
    ensures a.disbursement <= 0.0 || termDays <= 0 ==> a.annualYield == 0.0
    ensures a.annualYield >= 0.0
    ensures a.annualYield > 0.0 <==> a.disbursement > 0.0 && termDays > 0 && a.totalDeductions > 0.0
    // with nothing accrued and no fees, nothing is deducted and the yield is zero
    ensures a.periodRate == 0.0 && rates == FeeRates(0.0, 0.0, 0.0)
            ==> a.totalDeductions == 0.0 && a.disbursement == a.financed && a.annualYield == 0.0
  {
    var dailyRate := DailyRate(pow, monthlyRate);
    var periodRate := PeriodRate(dailyRate, termDays);
    var financed := Financed(invoiceAmount, haircut);
    var retained := Retained(invoiceAmount, haircut);
    var interest := Interest(financed, dailyRate, termDays);
    var fees := TaxedFees(invoiceAmount, financed, rates);
    var totalDeductions := interest + fees.taxable + fees.tax;
    var disbursement := financed - totalDeductions;
    var annualYield := AnnualYield(pow, financed, disbursement, termDays);
    Advance(financed, retained, dailyRate, periodRate, interest, fees, totalDeductions, disbursement, annualYield)
  }

  /** A full quote: the advance, and the late-payment interest reported beside it. */
  datatype Quote = Quote(advance: Advance, lateDailyRate: real, lateInterest: real)

  /**
   The whole calculation. The late interest is computed on the invoice
   amount and reported apart: it is not netted from the disbursement.
   */
  function Calculate(pow: RealPow, t: Terms): (q: Quote)
    requires PowerLaw(pow)
    requires ValidTerms(t)
    ensures q.advance == Discount(pow, t.invoiceAmount, t.haircut, t.monthlyRate, t.termDays, t.feeRates)
    ensures q.advance.financed + q.advance.retained == t.invoiceAmount
    ensures q.advance.disbursement + q.advance.totalDeductions + q.advance.retained == t.invoiceAmount
    // the late interest compounds the 2.5% monthly late rate, day by day, on the whole invoice
    ensures q.lateDailyRate == DailyRate(pow, LateMonthlyRate)
    ensures q.lateInterest == LateInterest(t.invoiceAmount, q.lateDailyRate, t.daysLate)
    ensures q.lateDailyRate > 0.0
    ensures q.lateInterest >= 0.0
    ensures q.lateInterest == 0.0 <==> t.daysLate == 0
  {
    var advance := Discount(pow, t.invoiceAmount, t.haircut, t.monthlyRate, t.termDays, t.feeRates);
    var lateDailyRate := DailyRate(pow, LateMonthlyRate);
    Quote(advance, lateDailyRate, LateInterest(t.invoiceAmount, lateDailyRate, t.daysLate))
  }

  /**
   The days late affect the late interest and nothing else: the split, the
   deductions, the disbursement and the yield are the same however late the
   invoice is.
   */
  lemma LateInterestIsNotNetted(pow: RealPow, t: Terms, daysLate: nat)
    requires PowerLaw(pow)
    requires ValidTerms(t)
    ensures Calculate(pow, t.(daysLate := daysLate)).advance == Calculate(pow, t).advance
  {
  }

  /** Late interest grows strictly with every further day late. */
  lemma LateInterestGrowsWithDaysLate(pow: RealPow, t: Terms, d1: nat, d2: nat)
    requires PowerLaw(pow)
    requires ValidTerms(t)
    requires d1 < d2
    ensures Calculate(pow, t.(daysLate := d1)).lateInterest < Calculate(pow, t.(daysLate := d2)).lateInterest
  {
    LateInterestStrictlyIncreasing(t.invoiceAmount, DailyRate(pow, LateMonthlyRate), d1, d2);
  }

  /**
   The taxable base holds the administrative cost and the insurance premiums
   only: changing the monthly rate, the term or the days late leaves every
   fee and the tax unchanged.
   */
  lemma TaxBaseExcludesInterest(pow: RealPow, t: Terms, monthlyRate: real, termDays: int, daysLate: nat)
    requires PowerLaw(pow)
    requires ValidTerms(t)
    requires monthlyRate >= 0.0
    ensures var u := t.(monthlyRate := monthlyRate, termDays := termDays, daysLate := daysLate);
            Calculate(pow, u).advance.fees == Calculate(pow, t).advance.fees
  {
  }

  /** Over a 30-day term, the interest deducted from an advance is the monthly rate on its financed part. */
  lemma MonthTermChargesMonthlyRate(pow: RealPow, invoiceAmount: real, haircut: real, monthlyRate: real,
                                    rates: FeeRates)
    requires PowerLaw(pow) && ExponentLaws(pow)
    requires invoiceAmount >= 0.0 && 0.0 <= haircut <= 1.0 && monthlyRate >= 0.0
    requires ValidFeeRates(rates)
    ensures ChargedAt(Discount(pow, invoiceAmount, haircut, monthlyRate, DaysPerMonth, rates), monthlyRate)
  {
    InterestOverAMonth(pow, Discount(pow, invoiceAmount, haircut, monthlyRate, DaysPerMonth, rates).financed, monthlyRate);
  }

  /** In a quote over a 30-day term, the interest deducted is the monthly rate on the financed amount. */
  lemma MonthQuoteChargesMonthlyRate(pow: RealPow, t: Terms)
    requires PowerLaw(pow) && ExponentLaws(pow)
    requires ValidTerms(t)
    ensures ChargedAt(Calculate(pow, t.(termDays := DaysPerMonth)).advance, t.monthlyRate)
  {
    MonthTermChargesMonthlyRate(pow, t.invoiceAmount, t.haircut, t.monthlyRate, t.feeRates);
  }

  /** In a quote 30 days late, the late interest is the 2.5% monthly late rate on the whole invoice. */
  lemma MonthLateChargesLateRate(pow: RealPow, t: Terms)
    requires PowerLaw(pow) && ExponentLaws(pow)
    requires ValidTerms(t)
    ensures Calculate(pow, t.(daysLate := DaysPerMonth)).lateInterest == LateMonthlyRate * t.invoiceAmount
  {
    LateInterestOverAMonth(pow, t.invoiceAmount);
  }

  /** The insurance premiums are charged on the invoice: the haircut does not change them. */
  lemma PremiumsIgnoreHaircut(pow: RealPow, t: Terms, haircut: real)
    requires PowerLaw(pow)
    requires ValidTerms(t)
    requires 0.0 <= haircut <= 1.0
    ensures Calculate(pow, t.(haircut := haircut)).advance.fees.creditInsurance
            == Calculate(pow, t).advance.fees.creditInsurance
    ensures Calculate(pow, t.(haircut := haircut)).advance.fees.cargoInsurance
            == Calculate(pow, t).advance.fees.cargoInsurance
  {
  }

  /**
   Late interest accrues on the whole invoice, not on the financed part: the
   haircut does not change it.
   */
  lemma LateInterestIgnoresHaircut(pow: RealPow, t: Terms, haircut: real)
    requires PowerLaw(pow)
    requires ValidTerms(t)
    requires 0.0 <= haircut <= 1.0
    ensures Calculate(pow, t.(haircut := haircut)).lateInterest == Calculate(pow, t).lateInterest
  {
  }
}

=== FILE: powers.dfy ===
/**
 Exponentiation over exact reals.

 The quote engine raises reals to two kinds of exponent: whole day counts
 (compounding a daily rate over a term or over the days late) and fractions
 (the 30th root that turns a monthly rate into a daily one, and the 360/term
 power that annualises a yield). Whole-number powers are defined here by
 recursion. Fractional powers are not definable in Dafny's real arithmetic,
 so the engine receives real exponentiation as a parameter of type `RealPow`
 together with the laws it is assumed to obey.
 */
module Powers {
  import opened RealArith

  /** `x` raised to the natural power `n`. */
  function Pow(x: real, n: nat): real {
    if n == 0 then 1.0 else x * Pow(x, n - 1)
  }

  /**
   A power of a positive base is positive; of a base of at least one, at
   least one; of a base above one with a positive exponent, above one.
   */
  lemma {:induction false} PowBounds(x: real, n: nat)
    ensures x > 0.0 ==> Pow(x, n) > 0.0
    ensures x >= 1.0 ==> Pow(x, n) >= 1.0
    ensures x > 1.0 && n > 0 ==> Pow(x, n) > 1.0
  {
    if n > 0 {
      PowBounds(x, n - 1);
      ProductSign(x, Pow(x, n - 1));
      if x > 1.0 {
        MulAboveOne(x, Pow(x, n - 1), Pow(x, n));
      }
    }
  }

  /**
   `x` raised to an integer power, negative exponents giving the reciprocal
   of the positive power, as floating-point `**` with an integer exponent does.
   */
  function IntPow(x: real, n: int): (r: real)
    requires x > 0.0
    ensures r > 0.0
    ensures n >= 0 ==> r == Pow(x, n)
    ensures n < 0 ==> r * Pow(x, -n) == 1.0
    ensures x == 1.0 ==> r == 1.0
    ensures x > 1.0 && n > 0 ==> r > 1.0
    ensures x > 1.0 && n < 0 ==> r < 1.0
  {
    if n >= 0 then
      PowOfOne(n);
      PowBounds(x, n);
      Pow(x, n)
    else
      PowOfOne(-n);
      PowBounds(x, -n);
      QuotientAgainstOne(1.0, Pow(x, -n));
      1.0 / Pow(x, -n)
  }

  lemma {:induction false} PowOfOne(n: nat)
    ensures Pow(1.0, n) == 1.0
  {
    if n > 0 {
      PowOfOne(n - 1);
    }
  }

  /** Compounding over `a + b` periods is compounding over `a`, then over `b`. */
  lemma {:induction false} PowAdds(x: real, a: nat, b: nat)
    ensures Pow(x, a + b) == Pow(x, a) * Pow(x, b)
  {
    if a > 0 {
      PowAdds(x, a - 1, b);
    }
  }

  /** Above one, a longer exponent gives a strictly larger power. */
  lemma {:induction false} PowStrictlyIncreasingInExponent(x: real, m: nat, n: nat)
    requires x > 1.0
    requires m < n
    ensures Pow(x, m) < Pow(x, n)
  {
    if m + 1 < n {
      PowStrictlyIncreasingInExponent(x, m, n - 1);
    }
    PowBounds(x, n - 1);
    MulAboveOne(x, Pow(x, n - 1), Pow(x, n));
  }

  /** For a positive exponent, a larger positive base gives a strictly larger power. */
  lemma {:induction false} PowStrictlyIncreasingInBase(x: real, y: real, n: nat)
    requires 0.0 < x < y
    requires n > 0
    ensures Pow(x, n) < Pow(y, n)
  {
    PowBounds(x, n - 1);
    if n > 1 {
      PowStrictlyIncreasingInBase(x, y, n - 1);
    }
    MulStrictlyMonotone(x, Pow(x, n - 1), y, Pow(y, n - 1));
  }

  /** Real exponentiation `pow(base, exponent)`, supplied by the caller. */
  type RealPow = (real, real) -> real

  /**
   The facts about real exponentiation that the engine's contracts rely on:
   a positive base gives a positive power, one to any power is one, and for a
   positive exponent the power grows strictly with the base.
   */
  ghost predicate PowerLaw(pow: RealPow) {
    && (forall x, y :: x > 0.0 ==> pow(x, y) > 0.0)
    && (forall y :: pow(1.0, y) == 1.0)
    && (forall x1, x2, y :: 0.0 < x1 < x2 && y > 0.0 ==> pow(x1, y) < pow(x2, y))
  }

  /** The `k`-th root of `x`, as real exponentiation computes it. */
  function Root(pow: RealPow, x: real, k: nat): real
    requires k > 0
  {
    pow(x, 1.0 / k as real)
  }

  /** The reciprocal of a non-zero exponent. */
  function Reciprocal(y: real): (r: real)
    requires y != 0.0
    ensures r * y == 1.0
  {
    1.0 / y
  }

  /**
   Two further laws of real exponentiation on positive bases: raising to
   `1 / k` is a `k`-th root, and raising to `y` is undone by raising to `1 / y`.
   */
  ghost predicate ExponentLaws(pow: RealPow) {
    && (forall x, k: nat :: x > 0.0 && k > 0 ==> Pow(Root(pow, x, k), k) == x)
    && (forall x, y {:trigger pow(pow(x, y), Reciprocal(y))} ::
          x > 0.0 && y != 0.0 ==> pow(pow(x, y), Reciprocal(y)) == x)
  }

  /**
   Under `PowerLaw`, a positive exponent keeps a base on the same side of
   one: above one stays above, below one (and positive) stays below, and one
   stays one.
   */
  lemma PowAgainstOne(pow: RealPow, x: real, y: real)
    requires PowerLaw(pow)
    requires y > 0.0
    ensures x > 1.0 ==> pow(x, y) > 1.0
    ensures 0.0 < x < 1.0 ==> pow(x, y) < 1.0
    ensures x == 1.0 ==> pow(x, y) == 1.0
  {
    assert pow(1.0, y) == 1.0;
  }
}

=== FILE: simulator.dfy ===
/**
 The simulator as the user drives it: the sidebar entries (invoice amount,
 haircut choice, risk grade, term, days late and three fee percentages) are
 resolved through the lookup tables into the calculation's terms, and the
 quote is computed from them.
 */
module Simulator {
  import opened Powers
  import opened Tables
  import opened Engine

  /** The sidebar entries; the three fee rates are percentages as typed. */
  datatype Request = Request(
    invoiceAmount: real,
    haircut: HaircutChoice,
    grade: RiskGrade,
    termDays: int,
    daysLate: nat,
    adminCostPercent: real,
    creditInsurancePercent: real,
    cargoInsurancePercent: real)

  /**
   The bounds the input widgets enforce: an invoice of at least 1000, a
   manual haircut between 0 and 100 percent, at most 60 days late, and no
   negative fee percentage. The term is not bounded here, since the due-date
   callback can set it to any whole number of days.
   */
  predicate WithinInputBounds(req: Request) {
    && req.invoiceAmount >= 1000.0
    && ValidChoice(req.haircut)
    && req.daysLate <= 60
    && req.adminCostPercent >= 0.0
    && req.creditInsurancePercent >= 0.0
    && req.cargoInsurancePercent >= 0.0
  }

  /** The calculation's terms for a request: tables looked up, percentages turned into fractions. */
  function Resolve(req: Request): (t: Terms)
    requires WithinInputBounds(req)
    ensures ValidTerms(t)
    ensures t.invoiceAmount == req.invoiceAmount && t.termDays == req.termDays && t.daysLate == req.daysLate
    ensures t.haircut == ResolveHaircut(req.haircut)
    ensures t.monthlyRate == MonthlyRate(req.grade)
    ensures t.feeRates.adminCost * 100.0 == req.adminCostPercent
    ensures t.feeRates.creditInsurance * 100.0 == req.creditInsurancePercent
    ensures t.feeRates.cargoInsurance * 100.0 == req.cargoInsurancePercent
  {
    Terms(
      req.invoiceAmount,
      ResolveHaircut(req.haircut),
      MonthlyRate(req.grade),
      req.termDays,
      req.daysLate,
      FeeRates(
        FromPercent(req.adminCostPercent),
        FromPercent(req.creditInsurancePercent),
        FromPercent(req.cargoInsurancePercent)))
  }

  /** The quote the simulator shows for a request. */
  function Simulate(pow: RealPow, req: Request): (q: Quote)
    requires PowerLaw(pow)
    requires WithinInputBounds(req)
    ensures q.advance.financed + q.advance.retained == req.invoiceAmount
    ensures 0.0 <= q.advance.retained <= req.invoiceAmount
    ensures q.advance.disbursement + q.advance.totalDeductions + q.advance.retained == req.invoiceAmount
    ensures q.lateInterest == 0.0 <==> req.daysLate == 0
    ensures q.advance.disbursement <= 0.0 || req.termDays <= 0 ==> q.advance.annualYield == 0.0
  {
    Calculate(pow, Resolve(req))
  }

  /**
   Holding everything else fixed, a riskier grade is charged strictly more
   interest, provided the term is positive and something is financed.
   */
  lemma InterestRisesWithGrade(pow: RealPow, req: Request, g1: RiskGrade, g2: RiskGrade)
    requires PowerLaw(pow)
    requires WithinInputBounds(req)
    requires req.termDays > 0
    requires ResolveHaircut(req.haircut) < 1.0
    requires GradeRank(g1) < GradeRank(g2)
    ensures Simulate(pow, req.(grade := g1)).advance.interest < Simulate(pow, req.(grade := g2)).advance.interest
  {
    MonthlyRateIncreasesWithGrade(g1, g2);
    var t := Resolve(req);
    var financed := Financed(t.invoiceAmount, t.haircut);
    InterestRisesWithMonthlyRate(pow, financed, MonthlyRate(g1), MonthlyRate(g2), t.termDays);
    InterestOfGrade(pow, req, g1);
    InterestOfGrade(pow, req, g2);
  }

  /** The interest quoted for a request with grade `g`, in terms of the resolved terms. */
  lemma InterestOfGrade(pow: RealPow, req: Request, g: RiskGrade)
    requires PowerLaw(pow)
    requires WithinInputBounds(req)
    ensures var t := Resolve(req);
            Simulate(pow, req.(grade := g)).advance.interest
            == Interest(Financed(t.invoiceAmount, t.haircut), DailyRate(pow, MonthlyRate(g)), t.termDays)
  {
    var t := Resolve(req);
    assert Resolve(req.(grade := g)) == t.(monthlyRate := MonthlyRate(g));
  }

  /**
   The default entries with Cherries: an invoice of 40000, 40% retained, so
   24000 financed; fees of 0.20%, 0.35% and 0.10% give 48, 140 and 40, taxed
   at 19% for 43.32; nothing is late.
   */
  lemma CherriesQuote(pow: RealPow)
    requires PowerLaw(pow)
    ensures var q := Simulate(pow, Request(40000.0, ByProduct(Cherries), A, 60, 0, 0.20, 0.35, 0.10));
            && q.advance.financed == 24000.0
            && q.advance.retained == 16000.0
            && q.advance.fees == Fees(48.0, 140.0, 40.0, 228.0, 43.32)
            && q.lateInterest == 0.0
  {
  }

  /**
   The interest of the Cherries entries under the exponent laws, whatever the
   fees: the daily rate of grade A compounds to 0.9% over each 30-day month,
   so 60 days accrue 1.009 * 1.009 - 1, which is 1.8081% of the 24000
   financed.
   */
  lemma CherriesTwoMonthInterest(pow: RealPow, rates: FeeRates)
    requires PowerLaw(pow) && ExponentLaws(pow)
    requires ValidFeeRates(rates)
    ensures Discount(pow, 40000.0, ResolveHaircut(ByProduct(Cherries)), MonthlyRate(A), 60, rates).interest
            == 433.944
  {
    TwoMonthsAtMonthlyRate(pow, 0.009);
  }

  /**
   Fees larger than the financed amount make the disbursement negative; the
   quote still exists and reports a yield of zero.
   */
  lemma OverchargedQuoteHasZeroYield(pow: RealPow)
    requires PowerLaw(pow)
    ensures var q := Simulate(pow, Request(40000.0, ByProduct(Cherries), A, 60, 0, 200.0, 0.35, 0.10));
            && q.advance.disbursement < 0.0
            && q.advance.annualYield == 0.0
  {
  }
}

=== FILE: tables.dfy ===
/**
 The simulator's fixed configuration: the haircut retained per product, the
 monthly rate per risk grade, the late-payment rate, the tax rate, and how a
 haircut is chosen (from the product table or typed in as a percentage).
 */
module Tables {

  /** The products offered in the product selector, in the selector's order. */
  datatype Product =
    | Blueberries    // Arándanos
    | Grapes         // Uvas
    | Bananas        // Bananas
    | CannedGoods    // Enlatados
    | Oil            // Aceite
    | Avocado        // Aguacate
    | Frozen         // Congelados
    | Flour          // Harina
    | Polypropylene  // Polipropileno
    | Cherries       // Cerezas
    | Other          // Otros

  /** Risk classification of the debtor. */
  datatype RiskGrade = A | B | C

  /** How the haircut is chosen: from the product table, or typed in as a percentage. */
  datatype HaircutChoice =
    | ByProduct(product: Product)
    | Manual(percent: real)

  /** Monthly rate charged on overdue invoices, independent of the risk grade. */
  const LateMonthlyRate: real := 0.025

  /** Tax charged on administrative cost and insurance premiums. */
  const TaxRate: real := 0.19

  /** Days in the month used to turn a monthly rate into a daily one. */
  const DaysPerMonth: nat := 30

  /** Days in the year used to annualise the yield. */
  const DaysPerYear: nat := 360

  /** The fraction a percentage stands for, as every percentage input is read. */
  function FromPercent(percent: real): (fraction: real)
    ensures fraction * 100.0 == percent
    ensures 0.0 <= percent <= 100.0 ==> 0.0 <= fraction <= 1.0
  {
    percent / 100.0
  }

  /** Share of the invoice held back for each product; no product is financed in full or not at all. */
  function ProductHaircut(p: Product): (h: real)
    ensures 0.0 < h < 1.0
    ensures 0.10 <= h <= 0.40
  {
    match p
    case Blueberries => 0.25
    case Grapes => 0.25
    case Bananas => 0.25
    case CannedGoods => 0.10
    case Oil => 0.15
    case Avocado => 0.20
    case Frozen => 0.15
    case Flour => 0.10
    case Polypropylene => 0.10
    case Cherries => 0.40
    case Other => 0.30
  }

  /** Position of a grade from least to most risky. */
  function GradeRank(g: RiskGrade): nat {
    match g
    case A => 0
    case B => 1
    case C => 2
  }

  /** Nominal monthly rate charged for a risk grade. */
  function MonthlyRate(g: RiskGrade): (m: real)
    ensures 0.0 < m < 1.0
  {
    match g
    case A => 0.009
    case B => 0.012
    case C => 0.017
  }

  /** Riskier grades pay a strictly higher monthly rate. */
  lemma MonthlyRateIncreasesWithGrade(g: RiskGrade, h: RiskGrade)
    ensures GradeRank(g) < GradeRank(h) <==> MonthlyRate(g) < MonthlyRate(h)
  {
  }

  /** The percentage bound the manual haircut field enforces. */
  predicate ValidChoice(choice: HaircutChoice) {
    choice.Manual? ==> 0.0 <= choice.percent <= 100.0
  }

  /** The haircut fraction a choice resolves to: always a fraction of the invoice between 0 and 1. */
  function ResolveHaircut(choice: HaircutChoice): (h: real)
    requires ValidChoice(choice)
    ensures 0.0 <= h <= 1.0
    ensures choice.ByProduct? ==> h == ProductHaircut(choice.product)
    ensures choice.Manual? ==> h * 100.0 == choice.percent
  {
    match choice
    case ByProduct(p) => ProductHaircut(p)
    case Manual(percent) => FromPercent(percent)
  }
}
